=== FILE: README.md ===
# Light-curve reduction of the prometheus transit driver

This project models the index arithmetic of prometheus' driver script
`main.py`, which turns the per-chord absorption results into the written
transit light curve. Each chord is one sightline through the projected
stellar disk at one orbital phase. The script does three things, all
modelled here:

1. It evaluates the opaque chord model on every element of `GRID` through an
   order-preserving process-pool map (module `Pool`).
2. It turns the ordered results into an array of shape `(N, L)`, where `L`
   is the length of a chord result. The reshape reads that data in C order
   with shape `(P, S, W)`, where `P = orbphase_steps`,
   `S = phi_steps * rho_steps` and `W = len(args[3])`, which the model takes
   to be the wavelength count (`args` comes from `prepareArguments`, which is
   not part of this model). It then sums over the spatial axis and flattens. The result is the
   light curve R (modules `NdArray`, `Reduction`, `ReductionProperties`).
3. It builds the coordinate label columns with
   `meshgrid(..., indexing = 'ij')` and flattens them. These go beside R in
   the light-curve file, and beside the optical-depth map when `recordTau` is
   set (modules `Labels`, `LightCurve`).

Values are `real`. The chord model is a function parameter
`(C, A) -> V` over an arbitrary chord type `C` and shared-argument type `A`.
The axes are given sequences.

Three behaviours of `main.py` shape the model:

- `main.py` pairs R with its labels wrongly whenever `P > 1` and `W > 1`;
  see Findings.
- The benchmark and optical-depth values come from `resultsDict`, which
  `main.py` never defines. Only the label columns of the optical-depth file
  are modelled.
- A shape mismatch surfaces as numpy's `ValueError`. `Reduce` returns it as
  a `ShapeError`:
  - `InhomogeneousRows` for ragged chord results (what numpy 1.24 and
    later raises);
  - `CannotReshape` when the element count is not `P * S * W`.

  Numpy checks only the element count, so chord results of a length other
  than `W` still reshape when the count matches. The model does the same,
  because it reshapes the C-order flattened data.

## Model

| member | source | states |
|---|---|---|
| Pool.MapOrdered | main.py:57 | the mapped results have one entry per grid element, and entry `i` is the chord model applied to `GRID[i]` with the shared arguments |
| Pool.EvaluateAll | main.py:55-58 | whatever order the workers finish in (any permutation of the chord indices), slot-by-index collection returns exactly the in-order results |
| Pool.MapFailFast | main.py:57 | with a raising chord model the map succeeds iff every chord succeeds; on success it is the ordered map; on failure the error is one raised by some chord and no partial table exists |
| NdArray.FlattenIndex | main.py:62 | C-order flattening of a rectangular array puts element `(i, j)` at flat position `i * n + j` and has `rows * n` elements |
| NdArray.SplitRow | main.py:62 | row `i` of a C-order reshape to rows of width `n` is the slice `[i * n, i * n + n)` of the flat data |
| NdArray.FlattenSplit | main.py:62 | reshaping flat data into rows and flattening again gives the flat data back |
| NdArray.SplitFlatten | main.py:62 | flattening a rectangular array and reshaping it to its own row width gives the same rows back |
| Reduction.Reduce | main.py:62 | the reduction succeeds exactly when the chord results are rectangular and hold `P * S * W` elements; for width-`W` rows with `W > 0` that means exactly `P * S` chords; R then has `P * W` cells |
| Reduction.ReduceCell | main.py:62 | `R[p * W + w]` is the sum over `s < S` of `RESULTS[p * S + s][w]` |
| Reduction.ReduceCells | main.py:62 | every cell `k` of R is the spatial sum of phase `k / W` at wavelength `k % W` |
| ReductionProperties.OneChordLocality | main.py:62 | replacing chord `i`'s values changes only the cells of phase `i / S`, each by the change at its own wavelength; all other cells are unchanged |
| ReductionProperties.ConstantChords | main.py:62 | if every chord value is `c`, every cell of R is `S * c` |
| ReductionProperties.TransmissionBounds | main.py:62 | transmissions in `[0, 1]` give cells in `[0, S]` |
| ReductionProperties.ReduceByLoops | main.py:62 | explicit nested accumulation (phase, then wavelength, then spatial chord) computes exactly the reshape-and-sum R |
| Labels.FlattenedMeshgrid | main.py:72-74 | position `k` of the flattened `ij` meshgrid of `x` and `y` holds `x[k / |y|]` and `y[k % |y|]`, with `|x| * |y|` positions |
| Labels.MeshgridColumns | main.py:72-74 | the two flattened label columns of `meshgrid(outer, inner, indexing = 'ij')` have `|outer| * |inner|` entries, entry `k` being `outer[k / |inner|]` and `inner[k % |inner|]`; for the light curve that is `wavelength[k] = wavelength_axis[k / P]` and `orbphase[k] = orbphase_axis[k % P]` |
| Labels.TauLabelsIndex | main.py:95-97 | the optical-depth label columns have `phi_steps * rho_steps` entries, with `phi[k] = phi_axis[k / rho_steps]` and `rho[k] = rho_axis[k % rho_steps]` |
| LightCurve.TransposeRoundTrip | main.py:79 | stacking three columns succeeds exactly when their lengths agree, and reading the table's columns back gives the three columns unchanged; otherwise the error names the three lengths |
| LightCurve.AsWrittenRows | main.py:72-79 | the file can be written exactly when `|R| = W * P`; line `k` is labelled wavelength `k / P` and phase `k % P` and carries `R[k]` |
| LightCurve.LabelsMatchValuesIff | main.py:62-79 | the labels on every line name the cell of the value on that line iff `P == 1` or `W == 1` |
| LightCurve.DegenerateTablesAgree | main.py:62-79 | with one orbital phase or one wavelength, the file as written is exactly the correctly labelled table, including its failure when the lengths disagree |
| LightCurve.TablesDiffer | main.py:62-79 | with at least two phases and two wavelengths (the first two wavelengths or the first two phases distinct), the file as written differs from the correctly labelled table: line 1 is labelled wavelength 0 and phase 1 instead of wavelength 1 and phase 0 |
| LightCurve.AsWrittenMislabels | main.py:62-79 | for two phases, one chord per phase and two wavelengths, line 1 of the file carries 2.0 but is labelled with a cell whose value is 3.0 |
| LightCurve.CorrectedRows | main.py:72-79 | with phase-major labels, line `k` is labelled wavelength `k % W` and phase `k / W` and carries `R[k]` |
| LightCurve.CorrectedTableFaithful | main.py:62-79 | with phase-major labels, every line carries the spatial sum of exactly the phase and wavelength it is labelled with |

## Findings

| source | as written | input that shows it | evidently intended | confidence | as-written member | corrected member |
|---|---|---|---|---|---|---|
| main.py:72-79 | The label columns come from `meshgrid(wavelength_axis, orbphase_axis, indexing = 'ij')`, so they are wavelength-major. R is phase-major. | `orbphase_steps = 2`, one chord per phase, two wavelengths, chord values `[1, 2]` and `[3, 4]`. Line 1 reads wavelength 10, phase 0.5, value 2.0, but that cell's value is 3.0. | Phase-major labels, `orbphase, wavelength = np.meshgrid(orbphase_axis, wavelength_axis, indexing = 'ij')`, so line `k` is phase `k / W`, wavelength `k % W` | medium; not executed | LightCurve.AsWrittenMislabels | LightCurve.CorrectedTableFaithful |

## Left out

- Reading the JSON setup file, building file paths and the `setup` entry point (main.py:13-47). This is file and process I/O.
- The multiprocessing pool lifecycle and `cpu_count` (main.py:51-60). Concurrency is modelled only as an arbitrary completion order in `Pool.EvaluateAll`.
- The bodies of `prepareArguments`, `constructAxis` and `evaluateChord`. They are not part of this model: the chord model is a function parameter and the axes are given sequences. The model does not assume that `constructAxis` returns `orbphase_steps` phases, nor that `len(args[3])` equals the length of `constructAxis(..., 'wavelength')`; the table lemmas require `|orbphaseAxis| == P` and `|wavelengthAxis| == W`.
- `np.savetxt`, the console prints and the banner (main.py:61, 79, 86, 101, 103-121). These are output only.
- The cm-to-Angstrom scaling by `1e8` and the min/max percentages (main.py:70, 107-109). These are float formatting with no structural content.
- The benchmark and optical-depth values (main.py:84, 99). They come from `resultsDict`, which `main.py` never defines, so those branches raise before writing. Only the label columns of the optical-depth file are modelled.
- Reduction.Reduce: floating-point summation order and rounding are not modelled; the sums are exact over `real`.
- Reduction.Reduce: step counts are `nat`. Numpy's `-1` inference for a negative dimension and the `int(...)` conversion of configuration values are not modelled.
- Pool.MapFailFast: the pool re-raises the failure it collects first, which depends on scheduling. The contract promises only that the error comes from some failing chord, not which one.

=== FILE: labels.dfy ===
/**
 * The coordinate columns written beside the reduced arrays: each is one of
 * the two `meshgrid(..., indexing = 'ij')` arrays, flattened in C order.
 */
module Labels {
  import opened NdArray

  /** Position `k` of the flattened `ij` meshgrid of `x` and `y`. */
  lemma MeshgridColumnAt<T>(x: seq<T>, y: seq<T>, k: nat)
    requires k < |x| * |y|
    ensures |Flatten(MeshgridIJ(x, y).0)| == |x| * |y|
    ensures |Flatten(MeshgridIJ(x, y).1)| == |x| * |y|
    ensures k / |y| < |x| && k % |y| < |y|
    ensures Flatten(MeshgridIJ(x, y).0)[k] == x[k / |y|]
    ensures Flatten(MeshgridIJ(x, y).1)[k] == y[k % |y|]
  {
    var grids := MeshgridIJ(x, y);
    Decompose(k, |x|, |y|);
    FlattenIndex(grids.0, |y|, k / |y|, k % |y|);
    FlattenIndex(grids.1, |y|, k / |y|, k % |y|);
  }

  /** Flattened `ij` meshgrid of `x` and `y`: position `k` carries `x[k / |y|]` and `y[k % |y|]`. */
  lemma FlattenedMeshgrid<T>(x: seq<T>, y: seq<T>)
    ensures |Flatten(MeshgridIJ(x, y).0)| == |x| * |y|
    ensures |Flatten(MeshgridIJ(x, y).1)| == |x| * |y|
    ensures forall k :: 0 <= k < |x| * |y| ==>
      k / |y| < |x| && k % |y| < |y| &&
      Flatten(MeshgridIJ(x, y).0)[k] == x[k / |y|] &&
      Flatten(MeshgridIJ(x, y).1)[k] == y[k % |y|]
  {
    FlattenLength(MeshgridIJ(x, y).0, |y|);
    FlattenLength(MeshgridIJ(x, y).1, |y|);
    forall k | 0 <= k < |x| * |y| {
      MeshgridColumnAt(x, y, k);
    }
  }

  /**
   * `a, b = np.meshgrid(outer, inner, indexing = 'ij')` followed by
   * `a.flatten()` and `b.flatten()`: `outer` is the slow index of both
   * columns and `inner` the fast one.
   */
  function MeshgridColumns(outer: seq<real>, inner: seq<real>): (columns: (seq<real>, seq<real>))
    ensures |columns.0| == |outer| * |inner| && |columns.1| == |columns.0|
    ensures forall k :: 0 <= k < |columns.0| ==>
      k / |inner| < |outer| && k % |inner| < |inner| &&
      columns.0[k] == outer[k / |inner|] &&
      columns.1[k] == inner[k % |inner|]
  {
    FlattenedMeshgrid(outer, inner);
    (Flatten(MeshgridIJ(outer, inner).0), Flatten(MeshgridIJ(outer, inner).1))
  }

  /** The light-curve label columns: wavelength is the slow index, orbital phase the fast one. */
  function LightCurveLabels(wavelengthAxis: seq<real>, orbphaseAxis: seq<real>): (seq<real>, seq<real>)
  {
    MeshgridColumns(wavelengthAxis, orbphaseAxis)
  }

  /** The optical-depth map label columns: phi is the slow index, rho the fast one. */
  function TauLabels(phiAxis: seq<real>, rhoAxis: seq<real>): (seq<real>, seq<real>)
  {
    MeshgridColumns(phiAxis, rhoAxis)
  }

  /**
   * The optical-depth map has `phi_steps * rho_steps` label lines, line `k`
   * naming `phi_axis[k / rho_steps]` and `rho_axis[k % rho_steps]`.
   */
  lemma TauLabelsIndex(phiAxis: seq<real>, rhoAxis: seq<real>)
    ensures |TauLabels(phiAxis, rhoAxis).0| == |phiAxis| * |rhoAxis|
    ensures |TauLabels(phiAxis, rhoAxis).1| == |phiAxis| * |rhoAxis|
    ensures forall k :: 0 <= k < |phiAxis| * |rhoAxis| ==>
      k / |rhoAxis| < |phiAxis| && k % |rhoAxis| < |rhoAxis| &&
      TauLabels(phiAxis, rhoAxis).0[k] == phiAxis[k / |rhoAxis|] &&
      TauLabels(phiAxis, rhoAxis).1[k] == rhoAxis[k % |rhoAxis|]
  {
  }
}

=== FILE: lightcurve.dfy ===
/**
 * The light-curve file: the columns `[wavelength, orbphase, R]` stacked and
 * transposed into one row per line of the file. R is flattened phase-major
 * (row `k` is phase `k / W`, wavelength `k % W`) while the label columns are
 * flattened wavelength-major (row `k` is wavelength `k / P`, phase `k % P`),
 * so the driver as written labels R correctly only when `P == 1` or `W == 1`.
 * `CorrectedTable` builds the labels phase-major instead.
 */
module LightCurve {
  import opened Wrappers
  import opened NdArray
  import opened Reduction
  import opened Labels

  /** One line of the light-curve file. */
  datatype Row = Row(wavelength: real, orbphase: real, value: real)

  /** numpy cannot stack columns of different lengths into one array. */
  datatype WriteError = ColumnLengthMismatch(wavelengths: nat, orbphases: nat, values: nat)

  /** `np.array([a, b, c]).T`: line `k` holds element `k` of each column. */
  function Transpose3(a: seq<real>, b: seq<real>, c: seq<real>): (r: Result<seq<Row>, WriteError>)
    ensures r.Ok? <==> |a| == |b| == |c|
    ensures r.Ok? ==> |r.value| == |c|
    ensures r.Ok? ==> forall k :: 0 <= k < |r.value| ==>
      r.value[k].wavelength == a[k] && r.value[k].orbphase == b[k] && r.value[k].value == c[k]
  {
    if |a| == |b| == |c| then Ok(seq(|c|, k requires 0 <= k < |c| => Row(a[k], b[k], c[k])))
    else Raised(ColumnLengthMismatch(|a|, |b|, |c|))
  }

  /** The three columns of a table, read back line by line: the inverse of `Transpose3`. */
  function Columns(rows: seq<Row>): (seq<real>, seq<real>, seq<real>)
  {
    (seq(|rows|, k requires 0 <= k < |rows| => rows[k].wavelength),
     seq(|rows|, k requires 0 <= k < |rows| => rows[k].orbphase),
     seq(|rows|, k requires 0 <= k < |rows| => rows[k].value))
  }

  /**
   * Stacking three columns and reading them back gives the same columns, so no
   * value is lost, moved or duplicated; columns of different lengths raise,
   * naming the three lengths.
   */
  lemma TransposeRoundTrip(a: seq<real>, b: seq<real>, c: seq<real>)
    ensures Transpose3(a, b, c).Ok? <==> |a| == |b| == |c|
    ensures Transpose3(a, b, c).Ok? ==> Columns(Transpose3(a, b, c).value) == (a, b, c)
    ensures Transpose3(a, b, c).Raised? ==> Transpose3(a, b, c).error == ColumnLengthMismatch(|a|, |b|, |c|)
  {
    if |a| == |b| == |c| {
      var cols := Columns(Transpose3(a, b, c).value);
      assert cols.0 == a;
      assert cols.1 == b;
      assert cols.2 == c;
    }
  }

  /** The table as the driver builds it: wavelength-major labels beside phase-major R. */
  function AsWrittenTable(wavelengthAxis: seq<real>, orbphaseAxis: seq<real>, R: seq<real>): Result<seq<Row>, WriteError>
  {
    var columns := LightCurveLabels(wavelengthAxis, orbphaseAxis);
    Transpose3(columns.0, columns.1, R)
  }

  /**
   * The table with phase-major labels,
   * `orbphase, wavelength = np.meshgrid(orbphase_axis, wavelength_axis, indexing = 'ij')`,
   * matching the order in which R is flattened.
   */
  function CorrectedTable(wavelengthAxis: seq<real>, orbphaseAxis: seq<real>, R: seq<real>): Result<seq<Row>, WriteError>
  {
    var columns := MeshgridColumns(orbphaseAxis, wavelengthAxis);
    Transpose3(columns.1, columns.0, R)
  }

  /** Line `k` of the driver's table: wavelength `k / P`, phase `k % P`, and `R[k]`. */
  lemma AsWrittenRows(wavelengthAxis: seq<real>, orbphaseAxis: seq<real>, R: seq<real>)
    ensures AsWrittenTable(wavelengthAxis, orbphaseAxis, R).Ok?
        <==> |R| == |wavelengthAxis| * |orbphaseAxis|
    ensures AsWrittenTable(wavelengthAxis, orbphaseAxis, R).Ok? ==>
      var rows := AsWrittenTable(wavelengthAxis, orbphaseAxis, R).value;
      |rows| == |R| &&
      forall k :: 0 <= k < |rows| ==>
        k / |orbphaseAxis| < |wavelengthAxis| && k % |orbphaseAxis| < |orbphaseAxis| &&
        rows[k] == Row(wavelengthAxis[k / |orbphaseAxis|], orbphaseAxis[k % |orbphaseAxis|], R[k])
  {
  }

  /** Line `k` of the corrected table: wavelength `k % W`, phase `k / W`, and `R[k]`. */
  lemma CorrectedRows(wavelengthAxis: seq<real>, orbphaseAxis: seq<real>, R: seq<real>)
    ensures CorrectedTable(wavelengthAxis, orbphaseAxis, R).Ok?
        <==> |R| == |orbphaseAxis| * |wavelengthAxis|
    ensures CorrectedTable(wavelengthAxis, orbphaseAxis, R).Ok? ==>
      var rows := CorrectedTable(wavelengthAxis, orbphaseAxis, R).value;
      |rows| == |R| &&
      forall k :: 0 <= k < |rows| ==>
        k / |wavelengthAxis| < |orbphaseAxis| && k % |wavelengthAxis| < |wavelengthAxis| &&
        rows[k] == Row(wavelengthAxis[k % |wavelengthAxis|], orbphaseAxis[k / |wavelengthAxis|], R[k])
  {
  }

  /** Axis indices `(phase, wavelength)` of a cell of the light curve. */
  datatype Cell = Cell(phase: nat, wavelength: nat)

  /** The cell whose value sits at position `k` of R (phase-major, `W` wavelengths). */
  function ValueCell(k: nat, W: nat): (c: Cell)
    requires W > 0
    ensures c.phase * W + c.wavelength == k && c.wavelength < W
  {
    Cell(k / W, k % W)
  }

  /** The cell named by the labels on line `k` of the driver's table (wavelength-major, `P` phases). */
  function LabelCell(k: nat, P: nat): (c: Cell)
    requires P > 0
    ensures c.wavelength * P + c.phase == k && c.phase < P
  {
    Cell(k % P, k / P)
  }

  /**
   * On every line of a `P`-phase, `W`-wavelength light curve the labels name
   * the cell whose value sits there exactly when `P == 1` or `W == 1`.
   */
  lemma LabelsMatchValuesIff(P: nat, W: nat)
    requires P > 0 && W > 0
    ensures (forall k :: 0 <= k < P * W ==> LabelCell(k, P) == ValueCell(k, W)) <==> (P == 1 || W == 1)
  {
    if P == 1 {
      forall k | 0 <= k < P * W
        ensures LabelCell(k, P) == ValueCell(k, W)
      {
        assert k < W;
      }
    } else if W == 1 {
      forall k | 0 <= k < P * W
        ensures LabelCell(k, P) == ValueCell(k, W)
      {
        assert k < P;
      }
    } else {
      MulMono(2, P, W);
      assert 1 < P * W;
      assert ValueCell(1, W) == Cell(0, 1);
      assert LabelCell(1, P) == Cell(1, 0);
    }
  }

  /**
   * The driver's table, concretely: two phases, one spatial chord, two
   * wavelengths, chord values `[1, 2]` and `[3, 4]`. Line 1 is labelled
   * wavelength 10, phase 0.5, but carries 2.0, the value of wavelength 20 at
   * phase 0; the cell it names holds 3.0.
   */
  lemma AsWrittenMislabels()
    ensures var results := [[1.0, 2.0], [3.0, 4.0]];
      var R := Reduce(results, 2, 1, 2);
      && R.Ok?
      && AsWrittenTable([10.0, 20.0], [0.0, 0.5], R.value).Ok?
      && AsWrittenTable([10.0, 20.0], [0.0, 0.5], R.value).value[1] == Row(10.0, 0.5, 2.0)
      && PhaseSum(results, 1, 1, 0, 1) == 3.0
  {
    var results := [[1.0, 2.0], [3.0, 4.0]];
    assert Uniform(results, 2);
    ReduceCell(results, 2, 1, 2, 0, 1);
    assert PhaseSum(results, 1, 0, 1, 1) == 2.0;
    assert PhaseSum(results, 1, 1, 0, 1) == 3.0;
    AsWrittenRows([10.0, 20.0], [0.0, 0.5], Reduce(results, 2, 1, 2).value);
  }

  /**
   * Line `k` is labelled wavelength `k % W` and phase `k / W`, and carries
   * the spatial sum of exactly that phase at exactly that wavelength.
   */
  predicate IsLabelledLine(results: seq<seq<real>>, S: nat, W: nat,
                           wavelengthAxis: seq<real>, orbphaseAxis: seq<real>, k: nat, line: Row)
  {
    && W > 0 && k / W < |orbphaseAxis| && k % W < |wavelengthAxis|
    && line.wavelength == wavelengthAxis[k % W]
    && line.orbphase == orbphaseAxis[k / W]
    && IsCellValue(results, S, k / W, k % W, line.value)
  }

  lemma CorrectedRowAt(results: seq<seq<real>>, P: nat, S: nat, W: nat,
                       wavelengthAxis: seq<real>, orbphaseAxis: seq<real>, k: nat)
    requires Uniform(results, W) && |results| == P * S
    requires |wavelengthAxis| == W && |orbphaseAxis| == P
    requires k < P * W
    ensures Reduce(results, P, S, W).Ok?
    ensures CorrectedTable(wavelengthAxis, orbphaseAxis, Reduce(results, P, S, W).value).Ok?
    ensures var rows := CorrectedTable(wavelengthAxis, orbphaseAxis, Reduce(results, P, S, W).value).value;
      && W > 0 && k < |rows| && k / W < P && k % W < W && (k / W) * S + S <= |results|
      && rows[k] == Row(wavelengthAxis[k % W], orbphaseAxis[k / W], PhaseSum(results, S, k / W, k % W, S))
  {
    Decompose(k, P, W);
    ReduceCell(results, P, S, W, k / W, k % W);
    CorrectedRows(wavelengthAxis, orbphaseAxis, Reduce(results, P, S, W).value);
  }

  lemma CorrectedTableShape(results: seq<seq<real>>, P: nat, S: nat, W: nat,
                            wavelengthAxis: seq<real>, orbphaseAxis: seq<real>)
    requires Uniform(results, W) && |results| == P * S
    requires |wavelengthAxis| == W && |orbphaseAxis| == P
    ensures Reduce(results, P, S, W).Ok?
    ensures CorrectedTable(wavelengthAxis, orbphaseAxis, Reduce(results, P, S, W).value).Ok?
    ensures |CorrectedTable(wavelengthAxis, orbphaseAxis, Reduce(results, P, S, W).value).value| == P * W
  {
    FlattenLength(results, W);
    assert Rectangular(results);
    var R := Reduce(results, P, S, W).value;
    assert |R| == P * W;
    var columns := MeshgridColumns(orbphaseAxis, wavelengthAxis);
    assert |columns.0| == P * W && |columns.1| == P * W;
  }

  /**
   * With phase-major labels every line of the file carries the spatial sum
   * of exactly the phase and wavelength it is labelled with.
   */
  lemma CorrectedTableFaithful(results: seq<seq<real>>, P: nat, S: nat, W: nat,
                               wavelengthAxis: seq<real>, orbphaseAxis: seq<real>)
    requires Uniform(results, W) && |results| == P * S
    requires |wavelengthAxis| == W && |orbphaseAxis| == P
    ensures Reduce(results, P, S, W).Ok?
    ensures CorrectedTable(wavelengthAxis, orbphaseAxis, Reduce(results, P, S, W).value).Ok?
    ensures var rows := CorrectedTable(wavelengthAxis, orbphaseAxis, Reduce(results, P, S, W).value).value;
      |rows| == P * W &&
      forall k :: 0 <= k < |rows| ==> IsLabelledLine(results, S, W, wavelengthAxis, orbphaseAxis, k, rows[k])
  {
    CorrectedTableShape(results, P, S, W, wavelengthAxis, orbphaseAxis);
    var rows := CorrectedTable(wavelengthAxis, orbphaseAxis, Reduce(results, P, S, W).value).value;
    forall k | 0 <= k < |rows|
      ensures IsLabelledLine(results, S, W, wavelengthAxis, orbphaseAxis, k, rows[k])
    {
      CorrectedRowAt(results, P, S, W, wavelengthAxis, orbphaseAxis, k);
    }
  }

  /**
   * With a single orbital phase or a single wavelength the driver's table is
   * exactly the corrected one, line for line, and fails in the same way.
   */
  lemma DegenerateTablesAgree(wavelengthAxis: seq<real>, orbphaseAxis: seq<real>, R: seq<real>)
    requires |orbphaseAxis| == 1 || |wavelengthAxis| == 1
    ensures AsWrittenTable(wavelengthAxis, orbphaseAxis, R) == CorrectedTable(wavelengthAxis, orbphaseAxis, R)
  {
    var P, W := |orbphaseAxis|, |wavelengthAxis|;
    AsWrittenRows(wavelengthAxis, orbphaseAxis, R);
    CorrectedRows(wavelengthAxis, orbphaseAxis, R);
    var written := AsWrittenTable(wavelengthAxis, orbphaseAxis, R);
    var corrected := CorrectedTable(wavelengthAxis, orbphaseAxis, R);
    if written.Ok? && P > 0 && W > 0 {
      LabelsMatchValuesIff(P, W);
      forall k | 0 <= k < |R|
        ensures written.value[k] == corrected.value[k]
      {
        assert LabelCell(k, P) == ValueCell(k, W);
      }
      assert written.value == corrected.value;
    }
  }

  /**
   * With at least two phases and two wavelengths whose first two axis values
   * differ, the driver's table is not the correctly labelled one: line 1 is
   * labelled phase 1 as written and phase 0 when corrected.
   */
  lemma TablesDiffer(wavelengthAxis: seq<real>, orbphaseAxis: seq<real>, R: seq<real>)
    requires |wavelengthAxis| > 1 && |orbphaseAxis| > 1
    requires |R| == |wavelengthAxis| * |orbphaseAxis|
    requires wavelengthAxis[0] != wavelengthAxis[1] || orbphaseAxis[0] != orbphaseAxis[1]
    ensures AsWrittenTable(wavelengthAxis, orbphaseAxis, R) != CorrectedTable(wavelengthAxis, orbphaseAxis, R)
  {
    var P, W := |orbphaseAxis|, |wavelengthAxis|;
    AsWrittenRows(wavelengthAxis, orbphaseAxis, R);
    CorrectedRows(wavelengthAxis, orbphaseAxis, R);
    MulMono(2, P, W);
    assert 1 < |R|;
    assert AsWrittenTable(wavelengthAxis, orbphaseAxis, R).value[1].orbphase == orbphaseAxis[1];
    assert CorrectedTable(wavelengthAxis, orbphaseAxis, R).value[1].orbphase == orbphaseAxis[0];
    assert AsWrittenTable(wavelengthAxis, orbphaseAxis, R).value[1].wavelength == wavelengthAxis[0];
    assert CorrectedTable(wavelengthAxis, orbphaseAxis, R).value[1].wavelength == wavelengthAxis[1];
  }
}

=== FILE: ndarray.dfy ===
/**
 * The slice of numpy's array semantics the light-curve reduction relies on:
 * C-order flattening of a two-level nesting, C-order splitting of a flat
 * sequence into equal rows (what `reshape` does to the data), and `meshgrid`
 * with `indexing = 'ij'`.
 */
module NdArray {

  /** Every row of `rows` has exactly `n` elements. */
  predicate Uniform<T>(rows: seq<seq<T>>, n: nat) {
    forall i :: 0 <= i < |rows| ==> |rows[i]| == n
  }

  /** All rows have the same length (the rows form a rectangular array). */
  predicate Rectangular<T>(rows: seq<seq<T>>) {
    |rows| == 0 || Uniform(rows, |rows[0]|)
  }

  /** C-order flattening: the rows one after another. */
  function Flatten<T>(rows: seq<seq<T>>): seq<T>
    decreases |rows|
  {
    if |rows| == 0 then [] else rows[0] + Flatten(rows[1..])
  }

  /** C-order split of `xs` into `count` consecutive rows of length `n`. */
  function Split<T>(xs: seq<T>, count: nat, n: nat): (rows: seq<seq<T>>)
    requires |xs| == count * n
    ensures |rows| == count
    ensures Uniform(rows, n)
    decreases count
  {
    if count == 0 then []
    else
      assert |xs| == (count - 1) * n + n;
      [xs[..n]] + Split(xs[n..], count - 1, n)
  }

  lemma MulStep(i: nat, n: nat)
    ensures i * n + n == (i + 1) * n
  {}

  /** Index `i` of a row of width `n` followed by column `j` stays inside `count` rows. */
  lemma IndexInRange(i: nat, j: nat, count: nat, n: nat)
    requires i < count && j < n
    ensures i * n + j < count * n
  {
    MulStep(i, n);
    assert (i + 1) * n <= count * n by {
      MulMono(i + 1, count, n);
    }
  }

  lemma MulMono(a: nat, b: nat, n: nat)
    requires a <= b
    ensures a * n <= b * n
  {}

  /** A flat index below `count * n` names row `k / n`, column `k % n`. */
  lemma Decompose(k: nat, count: nat, n: nat)
    requires k < count * n
    ensures n > 0
    ensures k / n < count && k % n < n
    ensures k == (k / n) * n + k % n
  {
    if k / n >= count {
      MulMono(count, k / n, n);
    }
  }

  /** The length of a flattened rectangular array is rows times columns. */
  lemma {:induction false} FlattenLength<T>(rows: seq<seq<T>>, n: nat)
    requires Uniform(rows, n)
    ensures |Flatten(rows)| == |rows| * n
    decreases |rows|
  {
    if |rows| > 0 {
      FlattenLength(rows[1..], n);
      MulStep(|rows| - 1, n);
    }
  }

  /** C-order flattening puts element `(i, j)` at flat index `i * n + j`. */
  lemma {:induction false} FlattenIndex<T>(rows: seq<seq<T>>, n: nat, i: nat, j: nat)
    requires Uniform(rows, n)
    requires i < |rows| && j < n
    ensures |Flatten(rows)| == |rows| * n
    ensures i * n + j < |Flatten(rows)|
    ensures Flatten(rows)[i * n + j] == rows[i][j]
    decreases i
  {
    FlattenLength(rows, n);
    IndexInRange(i, j, |rows|, n);
    if i > 0 {
      FlattenIndex(rows[1..], n, i - 1, j);
      MulStep(i - 1, n);
    }
  }

  /** Row `i` of a split is the slice of `n` elements starting at `i * n`. */
  lemma {:induction false} SplitRow<T>(xs: seq<T>, count: nat, n: nat, i: nat)
    requires |xs| == count * n
    requires i < count
    ensures i * n + n <= |xs|
    ensures Split(xs, count, n)[i] == xs[i * n .. i * n + n]
    decreases i
  {
    MulStep(i, n);
    MulMono(i + 1, count, n);
    if i > 0 {
      assert |xs[n..]| == (count - 1) * n;
      SplitRow(xs[n..], count - 1, n, i - 1);
      MulStep(i - 1, n);
    }
  }

  /** A split into `count > 0` rows is its first row followed by the split of the rest. */
  lemma SplitUnfold<T>(xs: seq<T>, count: nat, n: nat)
    requires count > 0 && |xs| == count * n
    ensures n <= |xs| && |xs[n..]| == (count - 1) * n
    ensures Split(xs, count, n) == [xs[..n]] + Split(xs[n..], count - 1, n)
  {
    MulStep(count - 1, n);
  }

  /** Splitting and then flattening gives back the flat data. */
  lemma {:induction false} FlattenSplit<T>(xs: seq<T>, count: nat, n: nat)
    requires |xs| == count * n
    ensures Flatten(Split(xs, count, n)) == xs
    decreases count
  {
    if count > 0 {
      SplitUnfold(xs, count, n);
      FlattenSplit(xs[n..], count - 1, n);
      assert xs == xs[..n] + xs[n..];
    }
  }

  /** Flattening a rectangular array and splitting it back gives the same rows. */
  lemma {:induction false} SplitFlatten<T>(rows: seq<seq<T>>, n: nat)
    requires Uniform(rows, n)
    ensures |Flatten(rows)| == |rows| * n
    ensures Split(Flatten(rows), |rows|, n) == rows
    decreases |rows|
  {
    FlattenLength(rows, n);
    if |rows| > 0 {
      SplitFlatten(rows[1..], n);
      var flat := Flatten(rows);
      assert flat[..n] == rows[0];
      assert flat[n..] == Flatten(rows[1..]);
    }
  }

  /**
   * `np.meshgrid(x, y, indexing = 'ij')`: two arrays of shape `(|x|, |y|)`,
   * the first repeating `x` down its rows, the second repeating `y` along them.
   */
  function MeshgridIJ<T>(x: seq<T>, y: seq<T>): (grids: (seq<seq<T>>, seq<seq<T>>))
    ensures |grids.0| == |x| && Uniform(grids.0, |y|)
    ensures |grids.1| == |x| && Uniform(grids.1, |y|)
    ensures forall i, j :: 0 <= i < |x| && 0 <= j < |y| ==> grids.0[i][j] == x[i] && grids.1[i][j] == y[j]
  {
    (seq(|x|, i requires 0 <= i < |x| => seq(|y|, _ => x[i])), seq(|x|, _ => y))
  }
}

=== FILE: pool.dfy ===
/**
 * `pool.map(partial(evaluateChord, args = args), GRID)`: one evaluation of the
 * opaque chord function per grid element, results in grid order whatever
 * order the workers finish in, and the first worker error aborting the map.
 */
module Pool {
  import opened Wrappers

  /** One place of the pool's result list: empty until its chord's worker reports back. */
  datatype Slot<T> = Empty | Filled(value: T)

  /** The ordered map: element `i` of the result is chord `i` evaluated with the shared arguments. */
  function MapOrdered<C, A, V>(evaluate: (C, A) -> V, grid: seq<C>, args: A): (results: seq<V>)
    ensures |results| == |grid|
    ensures forall i :: 0 <= i < |grid| ==> results[i] == evaluate(grid[i], args)
    decreases |grid|
  {
    if |grid| == 0 then [] else [evaluate(grid[0], args)] + MapOrdered(evaluate, grid[1..], args)
  }

  /** `0, 1, ..., n - 1`: the chord indices handed to the pool. */
  function Indices(n: nat): (ids: seq<nat>)
    ensures |ids| == n
    ensures forall i :: 0 <= i < n ==> ids[i] == i
  {
    seq(n, i requires 0 <= i < n => i)
  }

  /**
   * The pool as the workers run it: chords finish in `completion` order (any
   * permutation of the chord indices), each result is stored in the slot of
   * its chord, and the slots are read out in index order at the end.
   */
  method EvaluateAll<C, A, V>(evaluate: (C, A) -> V, grid: seq<C>, args: A, completion: seq<nat>)
    returns (results: seq<V>)
    requires multiset(completion) == multiset(Indices(|grid|))
    ensures |results| == |grid|
    ensures forall i :: 0 <= i < |grid| ==> results[i] == evaluate(grid[i], args)
  {
    var n := |grid|;
    var slots: seq<Slot<V>> := seq(n, _ => Empty);
    assert |completion| == n by {
      assert |multiset(completion)| == |multiset(Indices(n))|;
    }
    var t := 0;
    while t < |completion|
      invariant 0 <= t <= |completion|
      invariant |slots| == n
      invariant forall i :: 0 <= i < n && slots[i].Filled? ==> slots[i].value == evaluate(grid[i], args)
      invariant forall u :: 0 <= u < t ==> completion[u] < n && slots[completion[u]].Filled?
    {
      var c := completion[t];
      assert c in multiset(Indices(n));
      assert c < n;
      slots := slots[c := Filled(evaluate(grid[c], args))];
      t := t + 1;
    }
    results := [];
    var i := 0;
    while i < n
      invariant 0 <= i <= n
      invariant |results| == i
      invariant forall j :: 0 <= j < i ==> results[j] == evaluate(grid[j], args)
    {
      assert Indices(n)[i] == i;
      assert i in multiset(completion);
      ghost var u :| 0 <= u < |completion| && completion[u] == i;
      assert slots[i].Filled?;
      results := results + [slots[i].value];
      i := i + 1;
    }
  }

  /**
   * The map when a chord evaluation can raise: the whole map fails with the
   * error of a failing chord and no partial table is returned. The pool
   * re-raises whichever failure it collects first; this model takes the first
   * in grid order, and the contract promises only that it is some chord's error.
   */
  function MapFailFast<C, A, V, E>(evaluate: (C, A) -> Result<V, E>, grid: seq<C>, args: A): (r: Result<seq<V>, E>)
    ensures r.Ok? <==> forall i :: 0 <= i < |grid| ==> evaluate(grid[i], args).Ok?
    ensures r.Ok? ==> |r.value| == |grid|
    ensures r.Ok? ==> forall i :: 0 <= i < |grid| ==> Ok(r.value[i]) == evaluate(grid[i], args)
    ensures r.Raised? ==> exists i :: 0 <= i < |grid| && evaluate(grid[i], args) == Raised(r.error)
    decreases |grid|
  {
    if |grid| == 0 then Ok([])
    else
      match evaluate(grid[0], args)
      case Raised(e) => Raised(e)
      case Ok(v) =>
        match MapFailFast(evaluate, grid[1..], args)
        case Raised(e) =>
          Raised(e)
        case Ok(vs) => Ok([v] + vs)
  }
}

=== FILE: reduction.dfy ===
/**
 * The reduction of the per-chord results into the light curve R:
 * `np.array(RESULTS)` (rows of equal length), reshaped in C order to
 * `(orbphase_steps, phi_steps * rho_steps, W)`, summed over the middle
 * (spatial) axis and flattened.
 */
module Reduction {
  import opened Wrappers
  import opened NdArray

  /** Why numpy refuses to build or reshape the result array. */
  datatype ShapeError =
    | InhomogeneousRows
    | CannotReshape(size: nat, phases: nat, spatial: nat, wavelengths: nat)

  /** Sum over the rows of column `w`: the spatial sum for one wavelength. */
  function ColumnSum(rows: seq<seq<real>>, w: nat): real
    requires forall s :: 0 <= s < |rows| ==> w < |rows[s]|
    decreases |rows|
  {
    if |rows| == 0 then 0.0 else ColumnSum(rows[..|rows| - 1], w) + rows[|rows| - 1][w]
  }

  /** `np.sum(cube, axis = 1)` for a cube whose rows all have `W` elements. */
  function SumMiddleAxis(cube: seq<seq<seq<real>>>, W: nat): (plane: seq<seq<real>>)
    requires forall p :: 0 <= p < |cube| ==> Uniform(cube[p], W)
    ensures |plane| == |cube| && Uniform(plane, W)
  {
    seq(|cube|, p requires 0 <= p < |cube| =>
      assert Uniform(cube[p], W);
      seq(W, w requires 0 <= w < W => ColumnSum(cube[p], w)))
  }

  /** The C-order reshape of `flat` to `(P, S, W)`, as phase blocks of `S` rows of `W` values. */
  function Reshape3(flat: seq<real>, P: nat, S: nat, W: nat): (cube: seq<seq<seq<real>>>)
    requires |flat| == P * S * W
    ensures |cube| == P
    ensures forall p :: 0 <= p < P ==> |cube[p]| == S && Uniform(cube[p], W)
  {
    var cube := Split(Split(flat, P * S, W), P, S);
    BlocksUniform(Split(flat, P * S, W), P, S, W);
    cube
  }

  /** Splitting rows of width `W` into blocks keeps every row of every block at width `W`. */
  lemma BlocksUniform(rows: seq<seq<real>>, P: nat, S: nat, W: nat)
    requires |rows| == P * S && Uniform(rows, W)
    ensures forall p :: 0 <= p < P ==> Uniform(Split(rows, P, S)[p], W)
  {
    forall p | 0 <= p < P
      ensures Uniform(Split(rows, P, S)[p], W)
    {
      SplitRow(rows, P, S, p);
    }
  }

  /** Reshape the flat data to `(P, S, W)`, sum over `S`, flatten to `P * W` cells. */
  function ReduceFlat(flat: seq<real>, P: nat, S: nat, W: nat): (R: seq<real>)
    requires |flat| == P * S * W
    ensures |R| == P * W
  {
    var plane := SumMiddleAxis(Reshape3(flat, P, S, W), W);
    FlattenLength(plane, W);
    Flatten(plane)
  }

  /**
   * Line 62 of the light-curve driver: build the result array, reshape it
   * to `(P, S, W)` and reduce it, or fail the way numpy does.
   */
  function Reduce(results: seq<seq<real>>, P: nat, S: nat, W: nat): (r: Result<seq<real>, ShapeError>)
    ensures r.Ok? <==> Rectangular(results) && |Flatten(results)| == P * S * W
    ensures Uniform(results, W) && W > 0 ==> (r.Ok? <==> |results| == P * S)
    ensures r.Ok? ==> |r.value| == P * W
  {
    SizeOfUniform(results, P, S, W);
    if !Rectangular(results) then Raised(InhomogeneousRows)
    else if |Flatten(results)| != P * S * W then
      Raised(CannotReshape(|Flatten(results)|, P, S, W))
    else Ok(ReduceFlat(Flatten(results), P, S, W))
  }

  /** For rows of width `W > 0` the element count is `P * S * W` exactly when there are `P * S` rows. */
  lemma SizeOfUniform(results: seq<seq<real>>, P: nat, S: nat, W: nat)
    ensures Uniform(results, W) && W > 0 ==> (|Flatten(results)| == P * S * W <==> |results| == P * S)
  {
    if Uniform(results, W) && W > 0 {
      FlattenLength(results, W);
      if |results| * W == P * S * W {
        CancelRight(|results|, P * S, W);
      }
    }
  }

  lemma CancelRight(a: nat, b: nat, n: nat)
    requires n > 0 && a * n == b * n
    ensures a == b
  {
    if a < b {
      MulMono(a + 1, b, n);
      MulStep(a, n);
    } else if b < a {
      MulMono(b + 1, a, n);
      MulStep(b, n);
    }
  }

  /**
   * The reference definition of one light-curve cell: the sum over the
   * first `n` spatial chords of phase `p` of their value at wavelength `w`,
   * chord `s` of phase `p` being row `p * S + s` of the result table.
   */
  function PhaseSum(results: seq<seq<real>>, S: nat, p: nat, w: nat, n: nat): real
    requires n <= S && p * S + S <= |results|
    requires forall i :: 0 <= i < |results| ==> w < |results[i]|
    decreases n
  {
    if n == 0 then 0.0 else PhaseSum(results, S, p, w, n - 1) + results[p * S + n - 1][w]
  }

  /** `x` is the value of cell `(p, w)`: the spatial sum of phase `p` at wavelength `w`. */
  predicate IsCellValue(results: seq<seq<real>>, S: nat, p: nat, w: nat, x: real) {
    && p * S + S <= |results|
    && (forall i :: 0 <= i < |results| ==> w < |results[i]|)
    && x == PhaseSum(results, S, p, w, S)
  }

  lemma {:induction false} ColumnSumSlice(results: seq<seq<real>>, S: nat, p: nat, w: nat, n: nat)
    requires n <= S && p * S + S <= |results|
    requires forall i :: 0 <= i < |results| ==> w < |results[i]|
    ensures ColumnSum(results[p * S .. p * S + n], w) == PhaseSum(results, S, p, w, n)
    decreases n
  {
    if n > 0 {
      var slice := results[p * S .. p * S + n];
      assert slice[..n - 1] == results[p * S .. p * S + n - 1];
      ColumnSumSlice(results, S, p, w, n - 1);
    }
  }

  /** Phase `p` of a table of `P * S` chords has its `S` chords in range. */
  lemma PhaseInRange(p: nat, P: nat, S: nat)
    requires p < P
    ensures p * S + S <= P * S
  {
    MulStep(p, S);
    MulMono(p + 1, P, S);
  }

  /**
   * Cell `(p, w)` of R, at flat index `p * W + w`, is the sum over the `S`
   * spatial chords of phase `p` of their transmission at wavelength `w`.
   */
  lemma ReduceCell(results: seq<seq<real>>, P: nat, S: nat, W: nat, p: nat, w: nat)
    requires Uniform(results, W) && |results| == P * S
    requires p < P && w < W
    ensures Reduce(results, P, S, W).Ok?
    ensures p * W + w < P * W && p * S + S <= |results|
    ensures Reduce(results, P, S, W).value[p * W + w] == PhaseSum(results, S, p, w, S)
  {
    FlattenLength(results, W);
    IndexInRange(p, w, P, W);
    PhaseInRange(p, P, S);
    var flat := Flatten(results);
    SplitFlatten(results, W);
    assert Split(flat, P * S, W) == results;
    var cube := Reshape3(flat, P, S, W);
    SplitRow(results, P, S, p);
    assert cube[p] == results[p * S .. p * S + S];
    var plane := SumMiddleAxis(cube, W);
    FlattenIndex(plane, W, p, w);
    ColumnSumSlice(results, S, p, w, S);
  }

  lemma ReduceAt(results: seq<seq<real>>, P: nat, S: nat, W: nat, k: nat)
    requires Uniform(results, W) && |results| == P * S
    requires k < P * W
    ensures Reduce(results, P, S, W).Ok?
    ensures W > 0 && k / W < P && k % W < W && (k / W) * S + S <= |results|
    ensures Reduce(results, P, S, W).value[k] == PhaseSum(results, S, k / W, k % W, S)
  {
    Decompose(k, P, W);
    ReduceCell(results, P, S, W, k / W, k % W);
  }

  /**
   * Every cell of R, by flat index: cell `k` belongs to phase `k / W` and
   * wavelength `k % W`, and holds that phase's spatial sum at that wavelength.
   */
  lemma ReduceCells(results: seq<seq<real>>, P: nat, S: nat, W: nat)
    requires Uniform(results, W) && |results| == P * S
    ensures Reduce(results, P, S, W).Ok?
    ensures forall k :: 0 <= k < |Reduce(results, P, S, W).value| ==>
      W > 0 && k / W < P && k % W < W && (k / W) * S + S <= |results| &&
      Reduce(results, P, S, W).value[k] == PhaseSum(results, S, k / W, k % W, S)
  {
    FlattenLength(results, W);
    assert Rectangular(results);
    forall k | 0 <= k < |Reduce(results, P, S, W).value| {
      ReduceAt(results, P, S, W, k);
    }
  }
}

=== FILE: reduction_properties.dfy ===
/**
 * What the reduction promises about R, stated against the reference sum
 * `PhaseSum`: one chord only moves its own phase's cells, constant chords
 * give `S` times the constant, transmissions in `[0, 1]` give cells in
 * `[0, S]`, and an explicit nested loop computes the same R as the reshape.
 */
module ReductionProperties {
  import opened Wrappers
  import opened NdArray
  import opened Reduction

  /** Every chord value of every wavelength equals `c`. */
  predicate AllValues(results: seq<seq<real>>, c: real) {
    forall i, w :: 0 <= i < |results| && 0 <= w < |results[i]| ==> results[i][w] == c
  }

  /** Every chord value is a transmission: between 0 (opaque) and 1 (transparent). */
  predicate AllTransmissions(results: seq<seq<real>>) {
    forall i, w :: 0 <= i < |results| && 0 <= w < |results[i]| ==> 0.0 <= results[i][w] <= 1.0
  }

  /** Chord `i` lies in phase `p` exactly when `i / S == p`. */
  lemma PhaseOfChord(i: nat, p: nat, S: nat)
    requires S > 0
    ensures (p * S <= i < p * S + S) <==> i / S == p
  {
    var q := i / S;
    assert i == q * S + i % S;
    MulStep(q, S);
    MulStep(p, S);
    if q < p {
      MulMono(q + 1, p, S);
    } else if q > p {
      MulMono(p + 1, q, S);
    }
  }

  lemma {:induction false} PhaseSumUpdate(results: seq<seq<real>>, row: seq<real>, i: nat, S: nat, p: nat, w: nat, n: nat)
    requires n <= S && p * S + S <= |results|
    requires forall j :: 0 <= j < |results| ==> w < |results[j]|
    requires i < |results| && w < |row|
    ensures PhaseSum(results[i := row], S, p, w, n)
         == PhaseSum(results, S, p, w, n) + (if p * S <= i < p * S + n then row[w] - results[i][w] else 0.0)
    decreases n
  {
    if n > 0 {
      PhaseSumUpdate(results, row, i, S, p, w, n - 1);
    }
  }

  lemma LocalityAt(results: seq<seq<real>>, P: nat, S: nat, W: nat, i: nat, row: seq<real>, k: nat)
    requires Uniform(results, W) && |results| == P * S
    requires i < |results| && |row| == W
    requires k < P * W
    ensures Reduce(results, P, S, W).Ok? && Reduce(results[i := row], P, S, W).Ok?
    ensures W > 0 && S > 0 && k % W < W
    ensures Reduce(results[i := row], P, S, W).value[k]
         == Reduce(results, P, S, W).value[k] + (if k / W == i / S then row[k % W] - results[i][k % W] else 0.0)
  {
    var changed := results[i := row];
    assert Uniform(changed, W);
    Decompose(k, P, W);
    var p, w := k / W, k % W;
    ReduceCell(results, P, S, W, p, w);
    ReduceCell(changed, P, S, W, p, w);
    PhaseSumUpdate(results, row, i, S, p, w, S);
    PhaseOfChord(i, p, S);
  }

  /**
   * Replacing the values of chord `i` changes only the cells of phase
   * `i / S`, each by the change at its own wavelength; every other cell of R
   * is unchanged.
   */
  lemma OneChordLocality(results: seq<seq<real>>, P: nat, S: nat, W: nat, i: nat, row: seq<real>)
    requires Uniform(results, W) && |results| == P * S
    requires i < |results| && |row| == W
    ensures Reduce(results, P, S, W).Ok? && Reduce(results[i := row], P, S, W).Ok?
    ensures forall k :: 0 <= k < |Reduce(results, P, S, W).value| ==>
      W > 0 && S > 0 && k % W < W &&
      Reduce(results[i := row], P, S, W).value[k]
        == Reduce(results, P, S, W).value[k] + (if k / W == i / S then row[k % W] - results[i][k % W] else 0.0)
  {
    ReduceCells(results, P, S, W);
    assert Uniform(results[i := row], W);
    ReduceCells(results[i := row], P, S, W);
    forall k | 0 <= k < |Reduce(results, P, S, W).value| {
      LocalityAt(results, P, S, W, i, row, k);
    }
  }

  lemma {:induction false} PhaseSumConstant(results: seq<seq<real>>, c: real, S: nat, p: nat, w: nat, n: nat)
    requires n <= S && p * S + S <= |results|
    requires forall j :: 0 <= j < |results| ==> w < |results[j]|
    requires AllValues(results, c)
    ensures PhaseSum(results, S, p, w, n) == n as real * c
    decreases n
  {
    if n > 0 {
      PhaseSumConstant(results, c, S, p, w, n - 1);
    }
  }

  lemma ConstantAt(results: seq<seq<real>>, P: nat, S: nat, W: nat, c: real, k: nat)
    requires Uniform(results, W) && |results| == P * S
    requires AllValues(results, c)
    requires k < P * W
    ensures Reduce(results, P, S, W).Ok?
    ensures Reduce(results, P, S, W).value[k] == S as real * c
  {
    Decompose(k, P, W);
    ReduceCell(results, P, S, W, k / W, k % W);
    PhaseSumConstant(results, c, S, k / W, k % W, S);
  }

  /** If every chord gives the same value `c`, every cell of R is `S * c`. */
  lemma ConstantChords(results: seq<seq<real>>, P: nat, S: nat, W: nat, c: real)
    requires Uniform(results, W) && |results| == P * S
    requires AllValues(results, c)
    ensures Reduce(results, P, S, W).Ok?
    ensures forall k :: 0 <= k < |Reduce(results, P, S, W).value| ==>
      Reduce(results, P, S, W).value[k] == S as real * c
  {
    ReduceCells(results, P, S, W);
    forall k | 0 <= k < |Reduce(results, P, S, W).value| {
      ConstantAt(results, P, S, W, c, k);
    }
  }

  lemma {:induction false} PhaseSumBounds(results: seq<seq<real>>, S: nat, p: nat, w: nat, n: nat)
    requires n <= S && p * S + S <= |results|
    requires forall j :: 0 <= j < |results| ==> w < |results[j]|
    requires AllTransmissions(results)
    ensures 0.0 <= PhaseSum(results, S, p, w, n) <= n as real
    decreases n
  {
    if n > 0 {
      PhaseSumBounds(results, S, p, w, n - 1);
    }
  }

  lemma BoundsAt(results: seq<seq<real>>, P: nat, S: nat, W: nat, k: nat)
    requires Uniform(results, W) && |results| == P * S
    requires AllTransmissions(results)
    requires k < P * W
    ensures Reduce(results, P, S, W).Ok?
    ensures 0.0 <= Reduce(results, P, S, W).value[k] <= S as real
  {
    Decompose(k, P, W);
    ReduceCell(results, P, S, W, k / W, k % W);
    PhaseSumBounds(results, S, k / W, k % W, S);
  }

  /** Transmissions in `[0, 1]` give light-curve cells in `[0, S]`. */
  lemma TransmissionBounds(results: seq<seq<real>>, P: nat, S: nat, W: nat)
    requires Uniform(results, W) && |results| == P * S
    requires AllTransmissions(results)
    ensures Reduce(results, P, S, W).Ok?
    ensures forall k :: 0 <= k < |Reduce(results, P, S, W).value| ==>
      0.0 <= Reduce(results, P, S, W).value[k] <= S as real
  {
    ReduceCells(results, P, S, W);
    forall k | 0 <= k < |Reduce(results, P, S, W).value| {
      BoundsAt(results, P, S, W, k);
    }
  }

  lemma PlaneCellAt(results: seq<seq<real>>, P: nat, S: nat, W: nat, plane: seq<seq<real>>, k: nat)
    requires Uniform(results, W) && |results| == P * S
    requires |plane| == P && Uniform(plane, W)
    requires forall q, v :: 0 <= q < P && 0 <= v < W ==> IsCellValue(results, S, q, v, plane[q][v])
    requires k < P * W
    ensures Reduce(results, P, S, W).Ok?
    ensures |Flatten(plane)| == P * W
    ensures Flatten(plane)[k] == Reduce(results, P, S, W).value[k]
  {
    Decompose(k, P, W);
    var p, w := k / W, k % W;
    FlattenIndex(plane, W, p, w);
    ReduceCell(results, P, S, W, p, w);
    assert IsCellValue(results, S, p, w, plane[p][w]);
  }

  /** A plane of cell values, flattened, is the reduction. */
  lemma PlaneIsReduce(results: seq<seq<real>>, P: nat, S: nat, W: nat, plane: seq<seq<real>>)
    requires Uniform(results, W) && |results| == P * S
    requires |plane| == P && Uniform(plane, W)
    requires forall q, v :: 0 <= q < P && 0 <= v < W ==> IsCellValue(results, S, q, v, plane[q][v])
    ensures Reduce(results, P, S, W) == Ok(Flatten(plane))
  {
    FlattenLength(results, W);
    FlattenLength(plane, W);
    assert Rectangular(results);
    var R := Flatten(plane);
    var expected := Reduce(results, P, S, W).value;
    forall k | 0 <= k < |R|
      ensures R[k] == expected[k]
    {
      PlaneCellAt(results, P, S, W, plane, k);
    }
    assert R == expected;
  }

  /**
   * The reduction written as explicit nested accumulation, phase outermost,
   * then wavelength, then the spatial chords of that phase; it yields exactly
   * the reshape-and-sum light curve.
   */
  method ReduceByLoops(results: seq<seq<real>>, P: nat, S: nat, W: nat) returns (R: seq<real>)
    requires Uniform(results, W) && |results| == P * S
    ensures Reduce(results, P, S, W) == Ok(R)
  {
    var plane: seq<seq<real>> := [];
    for p := 0 to P
      invariant |plane| == p && Uniform(plane, W)
      invariant forall q, v :: 0 <= q < p && 0 <= v < W ==> IsCellValue(results, S, q, v, plane[q][v])
    {
      PhaseInRange(p, P, S);
      var line: seq<real> := [];
      for w := 0 to W
        invariant |line| == w
        invariant forall v :: 0 <= v < w ==> IsCellValue(results, S, p, v, line[v])
      {
        var acc := 0.0;
        for s := 0 to S
          invariant acc == PhaseSum(results, S, p, w, s)
        {
          IndexInRange(p, s, P, S);
          acc := acc + results[p * S + s][w];
        }
        line := line + [acc];
      }
      plane := plane + [line];
    }
    R := Flatten(plane);
    PlaneIsReduce(results, P, S, W, plane);
  }
}

=== FILE: wrappers.dfy ===
/** The outcome of a step of `main.py` that can raise instead of returning. */
module Wrappers {

  /** `Ok` carries the computed value; `Raised` carries the error that aborted the step. */
  datatype Result<+T, +E> = Ok(value: T) | Raised(error: E)
}
